=== FILE: README.md ===
# Hospital appointment bookkeeping, modelled in Dafny

This project models the request handlers of a small hospital appointment
application. The application has three roles. Admins manage doctor
accounts, patients book (doctor, date, time) slots, and doctors record the
outcome of appointments. Its state is a database of three tables: users,
doctor profiles and appointments.

- `models.dfy` (module `Models`) gives the row shapes of the three tables,
  the database `State` and the store invariant `Valid`. Two of its parts
  are column constraints: unique usernames (models.py:8) and at most one
  profile per user (models.py:16). The other two are not enforced by the
  database and hold because of how the handlers write rows: every profile
  is linked to an existing doctor user, and every key is below its id
  counter. It also defines the booking predicates
  `SlotTaken` and `NoDoubleBooking`.
- `auth.dfy` (module `Auth`) has the outcome of a request, the user loader
  that resolves a session, the per-handler role guard and the choice of
  landing page after login.
- `handlers.dfy` (module `Handlers`) describes every handler as a function
  from the database before the request to its outcome and the database after
  it.
- `properties.dfy` (module `Properties`) proves what the handlers guarantee
  together. It uses a route table (`Request`, `Handle`, `Run`).
- `store.dfy` (module `App`) holds the database as a mutable `Store` object.
  Each handler is a method that adds, deletes or overwrites map entries in
  place. Each method is proved to produce exactly the outcome and database of
  its `Handlers` function and to keep `Valid`.

A session is the logged-in user's id, or nothing. It is passed to every
protected handler explicitly. A redirect becomes an `Outcome`: `Ok`,
`LoginRequired`, `Redirected`, `DuplicateUsername`, `SlotConflict` or
`NotFound`.

Points of the code worth knowing:

- Only `book_appointment` keeps a slot to one `"Booked"` appointment.
  `doctor_appointment` overwrites the status unconditionally (app.py:177),
  so a doctor can set a second appointment of a slot back to `"Booked"`.
  `Properties.DoctorAppointmentKeepsNoDoubleBooking` states exactly when a
  doctor's update double-books: it sets `"Booked"` on an appointment that is
  not booked, in a slot another appointment holds (`Properties.Rebooks`).
  `Properties.DoctorAppointmentCanDoubleBook` reaches such a state from the
  seeded database. `Properties.RunKeepsNoDoubleBooking` proves that slots
  stay singly booked through any run without a rebooking, including runs
  in which doctors re-save appointments that are still `"Booked"`.
- The admin seeding checks for a user *named* `admin`, not for a user with
  role admin.
- A booking names the doctor by profile id, and the stored appointment
  carries that profile's user id.
- The patient is whoever is logged in. No role check is made on the stored
  doctor or patient reference beyond the guard.

## Model

| member | source | states |
|---|---|---|
| Models.HashPassword | app.py:53 | the stored hash accepts exactly the password it was made from |
| Models.NewAppointment | models.py:21-30 | a new appointment has status "Booked" (the column default) and no diagnosis, prescription or notes |
| Auth.CurrentUser | app.py:16-18 | a session resolves to a user exactly while that user's row exists |
| Auth.Authorize | app.py:70-73 | the guard admits exactly a logged-in caller with the required role; anonymous callers go to login, others are redirected |
| Handlers.CreateData | app.py:20-26 | the name check is `UsernameTaken` (also app.py:37, 98); afterwards a user named "admin" exists; if one already did, nothing changes; otherwise exactly one admin row is added |
| Handlers.Register | app.py:32-45 | a taken username yields DuplicateUsername and no change; otherwise exactly one patient user with the hashed password is added under the next id, and nothing else changes |
| Handlers.Login | app.py:47-61 | the lookup by name is `UsernameTaken`, the dashboard choice is `Auth.Landing` (app.py:55-59); a login succeeds only for the user with that name whose hash accepts the password, and lands on its role's dashboard; with unique usernames it succeeds exactly when such a user exists |
| Handlers.DoctorNew | app.py:87-108 | guard failure changes nothing; a taken username yields DuplicateUsername and no change; otherwise one doctor user and one profile linked to that user's id are added together |
| Handlers.DoctorEdit | app.py:110-122 | guard failure changes nothing; an unknown profile is NotFound; otherwise only that profile's name, specialization and availability change |
| Handlers.DoctorDelete | app.py:124-135 | guard failure changes nothing; an unknown profile is NotFound; otherwise that profile and its linked user are removed and the appointments are untouched |
| Handlers.PatientProfile | app.py:147-158 | guard failure changes nothing; otherwise only the caller's contact and age change |
| Handlers.DoctorAppointment | app.py:170-183 | guard failure changes nothing; an unknown id is NotFound; otherwise any doctor overwrites exactly status, diagnosis, prescription and notes, and patient, doctor, date and time are kept |
| Handlers.BookAppointment | app.py:195-212 | the slot query is `SlotTaken` (app.py:204); guard failure changes nothing; an unknown profile is NotFound; SlotConflict exactly when the profile's user already has a "Booked" appointment at that date and time, and then nothing changes; otherwise exactly one "Booked" appointment of the caller with the profile's user id is added |
| Handlers.PatientAppointments | app.py:143 | the patient dashboard lists exactly the appointments whose patient is the caller |
| Handlers.DoctorAppointments | app.py:166 | the doctor dashboard lists exactly the appointments whose doctor is the caller |
| Properties.NewUserKeepsValid | models.py:8 | adding a user with an untaken name under the next id keeps the store invariant |
| Properties.CreateDataKeepsValid | app.py:23-26 | seeding keeps the store invariant |
| Properties.RegisterKeepsValid | app.py:37-42 | registration keeps usernames unique and the rest of the store invariant |
| Properties.DoctorNewKeepsValid | app.py:98-106 | doctor creation keeps usernames unique and one profile per user |
| Properties.DoctorEditKeepsValid | app.py:115-120 | editing a profile keeps the store invariant |
| Properties.DoctorDeleteKeepsValid | app.py:129-134 | deleting a profile with its user leaves every remaining profile linked to a doctor user |
| Properties.PatientProfileKeepsValid | app.py:152-155 | updating contact and age keeps the store invariant |
| Properties.DoctorAppointmentKeepsValid | app.py:175-181 | updating an appointment keeps the store invariant |
| Properties.BookAppointmentKeepsValid | app.py:200-210 | booking keeps the store invariant |
| Properties.HandleKeepsValid | models.py:6-30 | every state-changing route keeps the store invariant |
| Properties.RunKeepsValid | models.py:6-30 | any sequence of requests keeps the store invariant |
| Properties.ReachableIsValid | app.py:20-26 | every database reachable from the seeded one has unique usernames, at most one profile per user and linked profiles |
| Properties.CreateDataIdempotent | app.py:23-26 | seeding twice is seeding once, and the seeded empty database holds exactly the admin as user 1 |
| Properties.GuardRejectsChangeNothing | app.py:87-211 | every protected route called anonymously is LoginRequired, and with another role Redirected, with no change |
| Properties.PatientCannotManageDoctors | app.py:87-135 | a patient calling doctor creation, editing or deletion is redirected with no change |
| Properties.BookKeepsNoDoubleBooking | app.py:204-210 | a booking never creates a second "Booked" appointment in a slot |
| Properties.DoctorAppointmentKeepsNoDoubleBooking | app.py:175-181 | from singly booked slots, a doctor's update keeps them singly booked exactly when it is not a rebooking: setting "Booked" on an appointment that is not booked, in a slot another appointment holds |
| Properties.DoctorAppointmentCanDoubleBook | app.py:175-181 | from the seeded database, creating a doctor, registering, booking, cancelling, booking again and setting the cancelled appointment back to "Booked" double-books the slot: the first five requests contain no rebooking and leave the slots singly booked, and the sixth is a rebooking |
| Properties.HandleKeepsNoDoubleBooking | app.py:204-210 | every request that is not a rebooking in the current state keeps slots singly booked |
| Properties.RunKeepsNoDoubleBooking | app.py:204-210 | any sequence of requests none of which is a rebooking in the state it meets keeps slots singly booked |
| Properties.ReachableNoDoubleBooking | app.py:204-210 | the same from the seeded database |
| Properties.BookTwice | app.py:204-210 | a free slot is booked successfully, and the identical booking right after, by any patient, is SlotConflict with no change |
| Properties.FinishedAppointmentFreesSlot | app.py:204 | only "Booked" blocks: once the doctor gives a slot's booked appointment another status, the slot can be booked again |
| Properties.BookingShowsOnDashboards | app.py:208-210 | a new booking appears on the patient's and on the doctor's dashboard as "Booked" |
| Properties.RegisterTwice | app.py:37-42 | registering the same username again is DuplicateUsername and leaves the first account as it was |
| Properties.RegisterThenLogin | app.py:40-59 | a newly registered patient logs in as the new user id, lands on the patient dashboard, and no other password works |
| Properties.DeletedDoctorIsGone | app.py:129-134 | after deletion the doctor's username is free, its login fails and a session it holds is anonymous |
| Properties.DeleteLeavesAppointmentsDangling | app.py:129-134 | the deleted doctor's appointments stay and name a doctor id that belongs to no user |
| Properties.ScenarioAccounts | app.py:87-107 | seeding, creating Dr. Smith and registering alice give users 1 to 3 and profile 1 |
| Properties.ScenarioBookings | app.py:195-211 | alice books Dr. Smith; bob is refused the same slot with no change |
| Properties.ScenarioOutcome | app.py:170-182 | Dr. Smith logs in on the doctor dashboard, records "Completed" and "flu", and alice's dashboard shows both |
| Properties.ExampleScenario | app.py:20-211 | the whole admin, doctor and patient walk-through in one statement |
| App.Store.constructor | app.py:22 | a new database has empty tables and satisfies the invariant |
| App.Store.CreateData | app.py:20-26 | in place, leaves the database as Handlers.CreateData and keeps the invariant |
| App.Store.Register | app.py:32-45 | in place, gives Handlers.Register's outcome and database and keeps the invariant |
| App.Store.Login | app.py:47-61 | changes nothing and returns Handlers.Login's result: logged in exactly when the named user's hash accepts the password |
| App.Store.DoctorNew | app.py:87-108 | in place, gives Handlers.DoctorNew's outcome and database and keeps the invariant |
| App.Store.DoctorEdit | app.py:110-122 | in place, gives Handlers.DoctorEdit's outcome and database and keeps the invariant |
| App.Store.DoctorDelete | app.py:124-135 | in place, gives Handlers.DoctorDelete's outcome and database and keeps the invariant |
| App.Store.PatientProfile | app.py:147-158 | in place, gives Handlers.PatientProfile's outcome and database and keeps the invariant |
| App.Store.DoctorAppointment | app.py:170-183 | in place, gives Handlers.DoctorAppointment's outcome and database and keeps the invariant |
| App.Store.BookAppointment | app.py:195-212 | in place, gives Handlers.BookAppointment's outcome and database, keeps the invariant, and keeps slots singly booked |
| App.BookSameSlotTwice | app.py:204-210 | two patients booking the same free slot in a row: the first gets Ok, the second SlotConflict; the store is left exactly as the first booking made it, one appointment larger, and keeps the invariant |

## Left out

- Flask routing, templates, `flash` messages and the GET branches that only render a form are left out. Each POST handler's redirect becomes an `Outcome`.
- A missing form field makes `request.form[...]` abort the request. This is not modelled: every handler receives all of its fields. Fields read with `request.form.get` may be absent and are `Option`s.
- The password hash (`Credential`) is modelled as an injective wrapper that keeps the password. One-wayness, the random salt and the hash algorithm are not modelled: the model does not capture that the stored hash does not reveal the password.
- `logout` and the session cookie are not modelled. Only the session's user id enters the model.
- Handlers.Register: the `login_user` after a successful registration (app.py:43) is not modelled; the new session is `Some(s.nextUserId)`, see `Properties.RegisterThenLogin`.
- Read-only pages (`admin_dashboard`, `doctor_list`, `all_appointments`, and the dashboards' doctor and patient maps) are left out. Only the appointment filters of the patient and doctor dashboards are modelled, without their descending date order.
- Primary keys come from counters that never reuse an id. SQLite can hand out a deleted highest id again, and the model does not capture that. If a deleted doctor held the highest user id, the next new user gets that id, and the doctor's dangling appointments and any session it still holds then resolve to the new account; `Properties.DeleteLeavesAppointmentsDangling` and `Properties.DeletedDoctorIsGone` describe only the state right after the deletion.
- Column length limits (`String(80)` and the like) are not modelled. SQLite does not enforce them.
- Handlers.DoctorNew: the source commits the user and the profile in two separate commits. The model treats them as one atomic step, so a failure between the two commits is not modelled.
- The race between the slot check and the insert in `book_appointment` under concurrent requests is not modelled. The model is single-threaded.
- `date.today()` in the booking form is wall-clock I/O and is left out.
- The role column is a three-valued enumeration, because only `admin`, `doctor` and `patient` are ever written. A profile's `user_id`, `name`, `specialization` and `availability` (models.py:16-19) and an appointment's references, `date` and `time` (models.py:23-26) are nullable columns but are always written, from `request.form[...]` or the session, so they are plain values, not optional.

=== FILE: auth.dfy ===
/** Sessions and the per-handler role guard. A session is the id of the
    logged-in user, or nothing; the user record is looked up afresh on every
    request, and each protected handler checks that user's role before it
    does anything else. */
module Auth {
  import opened Models

  /** What a request handler ends in, in place of the redirect it issues. */
  datatype Outcome =
    | Ok                 // the handler did its work
    | LoginRequired      // no logged-in user: redirect to the login page
    | Redirected         // logged in with the wrong role: redirect to the index page
    | DuplicateUsername
    | SlotConflict
    | NotFound

  /** The three dashboards a login can land on. */
  datatype Page = AdminDashboard | DoctorDashboard | PatientDashboard

  /** The user loader: the session's id resolves to a user only while that
      user's row exists; otherwise the request is anonymous. */
  function CurrentUser(s: State, session: Option<nat>): (u: Option<User>)
    ensures u.Some? <==> session.Some? && session.value in s.users
    ensures u.Some? ==> u.value == s.users[session.value]
  {
    if session.Some? && session.value in s.users then Some(s.users[session.value]) else None
  }

  /** The guard at the top of every protected handler: anonymous callers are
      sent to the login page, callers with another role to the index page. */
  function Authorize(user: Option<User>, required: Role): (r: Outcome)
    ensures r == Ok <==> user.Some? && user.value.role == required
    ensures r == LoginRequired <==> user.None?
    ensures r != Ok && r != LoginRequired ==> r == Redirected
  {
    if user.None? then LoginRequired
    else if user.value.role != required then Redirected
    else Ok
  }

  /** Where a successful login lands: admins and doctors on their own
      dashboards, everyone else on the patient dashboard. */
  function Landing(role: Role): Page
  {
    if role == Admin then AdminDashboard
    else if role == Doctor then DoctorDashboard
    else PatientDashboard
  }
}

=== FILE: handlers.dfy ===
/** The request handlers of the application, each as a function from the
    database before the request to its outcome and the database after it.
    Every handler that can fail returns the database unchanged on failure. */
module Handlers {
  import opened Models
  import opened Auth

  datatype Response = Response(outcome: Outcome, state: State)

  datatype LoginResult = LoggedIn(userId: nat, landing: Page) | InvalidCredentials

  /** The role guard applied to the caller of a protected handler. */
  function Guard(s: State, session: Option<nat>, required: Role): Outcome
  {
    Authorize(CurrentUser(s, session), required)
  }

  /** m2 is m with one more row, under key id. */
  ghost predicate AddsRow<T>(m: map<nat, T>, m2: map<nat, T>, id: nat, row: T)
  {
    && m2.Keys == m.Keys + {id}
    && m2[id] == row
    && forall k :: k in m && k != id ==> m2[k] == m[k]
  }

  /** m2 is m with the row under key id replaced by row; same keys. */
  ghost predicate ReplacesRow<T>(m: map<nat, T>, m2: map<nat, T>, id: nat, row: T)
  {
    && id in m
    && m2.Keys == m.Keys
    && m2[id] == row
    && forall k :: k in m && k != id ==> m2[k] == m[k]
  }

  /** t is s with one more user row, u, under the next user id. */
  ghost predicate InsertsUser(s: State, t: State, u: User)
  {
    && AddsRow(s.users, t.users, s.nextUserId, u)
    && t.nextUserId == s.nextUserId + 1
  }

  /** create_data: seeds the admin account unless a user named "admin" exists. */
  function CreateData(s: State): (t: State)
    ensures UsernameTaken(t.users, "admin")
    ensures UsernameTaken(s.users, "admin") ==> t == s
    ensures !UsernameTaken(s.users, "admin") ==>
      && InsertsUser(s, t, User("admin", HashPassword("admin123"), Admin, None, None))
      && t.profiles == s.profiles && t.appointments == s.appointments
      && t.nextProfileId == s.nextProfileId && t.nextAppointmentId == s.nextAppointmentId
  {
    if UsernameTaken(s.users, "admin") then s
    else
      var admin := User("admin", HashPassword("admin123"), Admin, None, None);
      var t := s.(users := s.users[s.nextUserId := admin], nextUserId := s.nextUserId + 1);
      assert t.users[s.nextUserId].username == "admin";
      t
  }

  /** register: anyone may sign up; the new account is always a patient. */
  function Register(s: State, username: string, password: string): (r: Response)
    ensures r.outcome == Ok || r.outcome == DuplicateUsername
    ensures r.outcome == DuplicateUsername <==> UsernameTaken(s.users, username)
    ensures r.outcome == DuplicateUsername ==> r.state == s
    ensures r.outcome == Ok ==>
      && InsertsUser(s, r.state, User(username, HashPassword(password), Patient, None, None))
      && r.state.profiles == s.profiles && r.state.appointments == s.appointments
      && r.state.nextProfileId == s.nextProfileId && r.state.nextAppointmentId == s.nextAppointmentId
  {
    if UsernameTaken(s.users, username) then Response(DuplicateUsername, s)
    else
      var user := User(username, HashPassword(password), Patient, None, None);
      Response(Ok, s.(users := s.users[s.nextUserId := user], nextUserId := s.nextUserId + 1))
  }

  /** login: the user with that username, if its password checks, is logged
      in and lands on the dashboard of its role. */
  ghost function Login(s: State, username: string, password: string): (r: LoginResult)
    ensures r.LoggedIn? ==>
      && r.userId in s.users
      && s.users[r.userId].username == username
      && CheckPassword(s.users[r.userId].passwordHash, password)
      && r.landing == Landing(s.users[r.userId].role)
    ensures UniqueUsernames(s.users) ==>
      (r.LoggedIn? <==> exists id :: id in s.users && s.users[id].username == username
                                       && CheckPassword(s.users[id].passwordHash, password))
  {
    if UsernameTaken(s.users, username) then
      var id :| id in s.users && s.users[id].username == username;
      if CheckPassword(s.users[id].passwordHash, password) then LoggedIn(id, Landing(s.users[id].role))
      else InvalidCredentials
    else InvalidCredentials
  }

  /** doctor_new (admin only): creates a doctor account and its profile
      together, unless the username is taken. */
  function DoctorNew(s: State, session: Option<nat>, name: string, specialization: string,
                     availability: string, username: string, password: string): (r: Response)
    ensures Guard(s, session, Admin) != Ok ==> r == Response(Guard(s, session, Admin), s)
    ensures Guard(s, session, Admin) == Ok ==>
      (r.outcome == DuplicateUsername <==> UsernameTaken(s.users, username))
    ensures Guard(s, session, Admin) == Ok ==> r.outcome == Ok || r.outcome == DuplicateUsername
    ensures r.outcome != Ok ==> r.state == s
    ensures r.outcome == Ok ==>
      && InsertsUser(s, r.state, User(username, HashPassword(password), Doctor, None, None))
      && AddsRow(s.profiles, r.state.profiles, s.nextProfileId,
                 DoctorProfile(s.nextUserId, name, specialization, availability))
      && r.state.nextProfileId == s.nextProfileId + 1
      && r.state.appointments == s.appointments && r.state.nextAppointmentId == s.nextAppointmentId
  {
    var guard := Guard(s, session, Admin);
    if guard != Ok then Response(guard, s)
    else if UsernameTaken(s.users, username) then Response(DuplicateUsername, s)
    else
      var user := User(username, HashPassword(password), Doctor, None, None);
      var profile := DoctorProfile(s.nextUserId, name, specialization, availability);
      Response(Ok, s.(users := s.users[s.nextUserId := user], nextUserId := s.nextUserId + 1,
                      profiles := s.profiles[s.nextProfileId := profile], nextProfileId := s.nextProfileId + 1))
  }

  /** doctor_edit (admin only): overwrites a profile's name, specialization
      and availability. */
  function DoctorEdit(s: State, session: Option<nat>, profileId: nat, name: string,
                      specialization: string, availability: string): (r: Response)
    ensures Guard(s, session, Admin) != Ok ==> r == Response(Guard(s, session, Admin), s)
    ensures Guard(s, session, Admin) == Ok && profileId !in s.profiles ==> r == Response(NotFound, s)
    ensures Guard(s, session, Admin) == Ok && profileId in s.profiles ==> r.outcome == Ok
    ensures r.outcome == Ok ==>
      && profileId in s.profiles
      && ReplacesRow(s.profiles, r.state.profiles, profileId,
                     DoctorProfile(s.profiles[profileId].userId, name, specialization, availability))
      && r.state.users == s.users && r.state.appointments == s.appointments
      && r.state.nextUserId == s.nextUserId && r.state.nextProfileId == s.nextProfileId
      && r.state.nextAppointmentId == s.nextAppointmentId
  {
    var guard := Guard(s, session, Admin);
    if guard != Ok then Response(guard, s)
    else if profileId !in s.profiles then Response(NotFound, s)
    else
      var profile := s.profiles[profileId].(name := name, specialization := specialization,
                                            availability := availability);
      Response(Ok, s.(profiles := s.profiles[profileId := profile]))
  }

  /** doctor_delete (admin only): removes a profile and the user it is linked
      to. Appointments are not touched, so those of the removed doctor keep
      a doctor id that no longer names a user. */
  function DoctorDelete(s: State, session: Option<nat>, profileId: nat): (r: Response)
    ensures Guard(s, session, Admin) != Ok ==> r == Response(Guard(s, session, Admin), s)
    ensures Guard(s, session, Admin) == Ok && profileId !in s.profiles ==> r == Response(NotFound, s)
    ensures Guard(s, session, Admin) == Ok && profileId in s.profiles ==> r.outcome == Ok
    ensures r.outcome == Ok ==>
      && profileId in s.profiles
      && r.state.profiles.Keys == s.profiles.Keys - {profileId}
      && r.state.users.Keys == s.users.Keys - {s.profiles[profileId].userId}
      && (forall k :: k in r.state.profiles ==> r.state.profiles[k] == s.profiles[k])
      && (forall k :: k in r.state.users ==> r.state.users[k] == s.users[k])
      && r.state.appointments == s.appointments
      && r.state.nextUserId == s.nextUserId && r.state.nextProfileId == s.nextProfileId
      && r.state.nextAppointmentId == s.nextAppointmentId
  {
    var guard := Guard(s, session, Admin);
    if guard != Ok then Response(guard, s)
    else if profileId !in s.profiles then Response(NotFound, s)
    else
      var userId := s.profiles[profileId].userId;
      var users := if userId in s.users then s.users - {userId} else s.users;
      Response(Ok, s.(profiles := s.profiles - {profileId}, users := users))
  }

  /** patient_profile (patients only): overwrites the caller's own contact
      and age. */
  function PatientProfile(s: State, session: Option<nat>, contact: Option<string>, age: Option<string>): (r: Response)
    ensures Guard(s, session, Patient) != Ok ==> r == Response(Guard(s, session, Patient), s)
    ensures Guard(s, session, Patient) == Ok ==> r.outcome == Ok
    ensures r.outcome == Ok ==>
      && session.Some? && session.value in s.users
      && var u := s.users[session.value];
      && ReplacesRow(s.users, r.state.users, session.value,
                     User(u.username, u.passwordHash, u.role, contact, age))
      && r.state.profiles == s.profiles && r.state.appointments == s.appointments
      && r.state.nextUserId == s.nextUserId && r.state.nextProfileId == s.nextProfileId
      && r.state.nextAppointmentId == s.nextAppointmentId
  {
    var guard := Guard(s, session, Patient);
    if guard != Ok then Response(guard, s)
    else
      var user := s.users[session.value].(contact := contact, age := age);
      Response(Ok, s.(users := s.users[session.value := user]))
  }

  /** doctor_appointment (doctors only): overwrites the status, diagnosis,
      prescription and notes of any appointment, whoever its doctor is, and
      without looking at the other appointments of that slot. */
  function DoctorAppointment(s: State, session: Option<nat>, appointmentId: nat, status: Option<string>,
                             diagnosis: Option<string>, prescription: Option<string>,
                             notes: Option<string>): (r: Response)
    ensures Guard(s, session, Doctor) != Ok ==> r == Response(Guard(s, session, Doctor), s)
    ensures Guard(s, session, Doctor) == Ok && appointmentId !in s.appointments ==> r == Response(NotFound, s)
    ensures Guard(s, session, Doctor) == Ok && appointmentId in s.appointments ==> r.outcome == Ok
    ensures r.outcome == Ok ==>
      && appointmentId in s.appointments
      && var a := s.appointments[appointmentId];
      && ReplacesRow(s.appointments, r.state.appointments, appointmentId,
                     Appointment(a.patientId, a.doctorId, a.date, a.time, status, diagnosis, prescription, notes))
      && r.state.users == s.users && r.state.profiles == s.profiles
      && r.state.nextUserId == s.nextUserId && r.state.nextProfileId == s.nextProfileId
      && r.state.nextAppointmentId == s.nextAppointmentId
  {
    var guard := Guard(s, session, Doctor);
    if guard != Ok then Response(guard, s)
    else if appointmentId !in s.appointments then Response(NotFound, s)
    else
      var appointment := s.appointments[appointmentId].(status := status, diagnosis := diagnosis,
                                                        prescription := prescription, notes := notes);
      Response(Ok, s.(appointments := s.appointments[appointmentId := appointment]))
  }

  /** book_appointment (patients only): books the doctor of a profile at a
      date and time unless that doctor already has a "Booked" appointment
      there. The new row names the doctor by USER id. */
  function BookAppointment(s: State, session: Option<nat>, profileId: nat, date: string, time: string): (r: Response)
    ensures Guard(s, session, Patient) != Ok ==> r == Response(Guard(s, session, Patient), s)
    ensures Guard(s, session, Patient) == Ok && profileId !in s.profiles ==> r == Response(NotFound, s)
    ensures Guard(s, session, Patient) == Ok && profileId in s.profiles ==>
      && (r.outcome == SlotConflict <==> SlotTaken(s.appointments, s.profiles[profileId].userId, date, time))
      && (r.outcome == Ok || r.outcome == SlotConflict)
    ensures r.outcome != Ok ==> r.state == s
    ensures r.outcome == Ok ==>
      && session.Some? && profileId in s.profiles
      && AddsRow(s.appointments, r.state.appointments, s.nextAppointmentId,
                 NewAppointment(session.value, s.profiles[profileId].userId, date, time))
      && r.state.nextAppointmentId == s.nextAppointmentId + 1
      && r.state.users == s.users && r.state.profiles == s.profiles
      && r.state.nextUserId == s.nextUserId && r.state.nextProfileId == s.nextProfileId
  {
    var guard := Guard(s, session, Patient);
    if guard != Ok then Response(guard, s)
    else if profileId !in s.profiles then Response(NotFound, s)
    else
      var doctor := s.profiles[profileId];
      if SlotTaken(s.appointments, doctor.userId, date, time) then Response(SlotConflict, s)
      else
        var appointment := NewAppointment(session.value, doctor.userId, date, time);
        Response(Ok, s.(appointments := s.appointments[s.nextAppointmentId := appointment],
                        nextAppointmentId := s.nextAppointmentId + 1))
  }

  /** The appointment list of the patient dashboard (ordering left out). */
  function PatientAppointments(s: State, patientId: nat): (m: map<nat, Appointment>)
    ensures forall id :: id in m <==> id in s.appointments && s.appointments[id].patientId == patientId
    ensures forall id :: id in m ==> m[id] == s.appointments[id]
  {
    map id | id in s.appointments && s.appointments[id].patientId == patientId :: s.appointments[id]
  }

  /** The appointment list of the doctor dashboard (ordering left out). */
  function DoctorAppointments(s: State, doctorId: nat): (m: map<nat, Appointment>)
    ensures forall id :: id in m <==> id in s.appointments && s.appointments[id].doctorId == doctorId
    ensures forall id :: id in m ==> m[id] == s.appointments[id]
  {
    map id | id in s.appointments && s.appointments[id].doctorId == doctorId :: s.appointments[id]
  }
}

=== FILE: models.dfy ===
/** The three tables of the hospital database (users, doctor profiles and
    appointments), their row shapes and the store invariant the request
    handlers keep. Every table is a map from its integer primary key to its
    row. */
module Models {

  datatype Option<+T> = None | Some(value: T)

  /** The role column. Only these three values are ever written. */
  datatype Role = Admin | Doctor | Patient

  /** A stored password hash, modelled as an injective wrapper that keeps the
      password: the only thing the application does with it is check a
      candidate password against it, and exactly the hashed password passes
      that check. One-wayness, the salt and the algorithm are not modelled. */
  datatype Credential = Hashed(secret: string)

  /** generate_password_hash */
  function HashPassword(password: string): (c: Credential)
    ensures forall candidate :: CheckPassword(c, candidate) <==> candidate == password
  {
    Hashed(password)
  }

  /** check_password_hash */
  predicate CheckPassword(c: Credential, candidate: string)
  {
    c.secret == candidate
  }

  /** A row of the user table. username, passwordHash and role are required;
      contact and age may be empty. The id is the row's key in State.users. */
  datatype User = User(
    username: string,
    passwordHash: Credential,
    role: Role,
    contact: Option<string>,
    age: Option<string>)

  /** A row of the doctor profile table, linked to its user by userId. */
  datatype DoctorProfile = DoctorProfile(
    userId: nat,
    name: string,
    specialization: string,
    availability: string)

  /** A row of the appointment table. doctorId is a USER id (the doctor's
      login), not a profile id. date and time are opaque strings. */
  datatype Appointment = Appointment(
    patientId: nat,
    doctorId: nat,
    date: string,
    time: string,
    status: Option<string>,
    diagnosis: Option<string>,
    prescription: Option<string>,
    notes: Option<string>)

  const BOOKED: string := "Booked"

  /** A fresh appointment row: the status column defaults to "Booked" and the
      doctor-written columns start empty. */
  function NewAppointment(patientId: nat, doctorId: nat, date: string, time: string): (a: Appointment)
    ensures IsBooked(a)
    ensures a.patientId == patientId && a.doctorId == doctorId && a.date == date && a.time == time
    ensures a.diagnosis.None? && a.prescription.None? && a.notes.None?
  {
    Appointment(patientId, doctorId, date, time, Some(BOOKED), None, None, None)
  }

  /** The whole database: the three tables and the next primary key of each. */
  datatype State = State(
    users: map<nat, User>,
    profiles: map<nat, DoctorProfile>,
    appointments: map<nat, Appointment>,
    nextUserId: nat,
    nextProfileId: nat,
    nextAppointmentId: nat)

  /** The freshly created database: no rows, keys start at 1. */
  function Empty(): State
  {
    State(map[], map[], map[], 1, 1, 1)
  }

  predicate UsernameTaken(users: map<nat, User>, username: string)
  {
    exists id :: id in users && users[id].username == username
  }

  /** The unique constraint on the username column. */
  ghost predicate UniqueUsernames(users: map<nat, User>)
  {
    forall i, j :: i in users && j in users && users[i].username == users[j].username ==> i == j
  }

  /** The unique constraint on the profile's user_id column. */
  ghost predicate OneProfilePerUser(profiles: map<nat, DoctorProfile>)
  {
    forall p, q :: p in profiles && q in profiles && profiles[p].userId == profiles[q].userId ==> p == q
  }

  /** Every profile points at an existing user whose role is doctor. */
  ghost predicate ProfilesLinked(s: State)
  {
    forall p :: p in s.profiles ==> s.profiles[p].userId in s.users && s.users[s.profiles[p].userId].role == Doctor
  }

  /** Primary keys are positive and below the next key to be handed out,
      and so is every user id a profile refers to. */
  ghost predicate KeysBelowCounters(s: State)
  {
    && 0 < s.nextUserId && 0 < s.nextProfileId && 0 < s.nextAppointmentId
    && (forall id :: id in s.users ==> 0 < id < s.nextUserId)
    && (forall id :: id in s.profiles ==> 0 < id < s.nextProfileId)
    && (forall id :: id in s.appointments ==> 0 < id < s.nextAppointmentId)
    && (forall p :: p in s.profiles ==> s.profiles[p].userId < s.nextUserId)
  }

  /** The store invariant, kept by every request handler. UniqueUsernames
      and OneProfilePerUser are the unique constraints of the username and
      profile user_id columns; ProfilesLinked and KeysBelowCounters are not
      enforced by the database but hold because of how the handlers write
      rows. */
  ghost predicate Valid(s: State)
  {
    && KeysBelowCounters(s)
    && UniqueUsernames(s.users)
    && OneProfilePerUser(s.profiles)
    && ProfilesLinked(s)
  }

  predicate IsBooked(a: Appointment)
  {
    a.status == Some(BOOKED)
  }

  /** The booking query: some appointment of this doctor user at this date
      and time still has status "Booked". */
  predicate SlotTaken(appointments: map<nat, Appointment>, doctorId: nat, date: string, time: string)
  {
    exists id :: id in appointments && appointments[id].doctorId == doctorId
      && appointments[id].date == date && appointments[id].time == time && IsBooked(appointments[id])
  }

  /** At most one "Booked" appointment per (doctor, date, time) slot. */
  ghost predicate NoDoubleBooking(appointments: map<nat, Appointment>)
  {
    forall i, j ::
      i in appointments && j in appointments && IsBooked(appointments[i]) && IsBooked(appointments[j])
      && appointments[i].doctorId == appointments[j].doctorId
      && appointments[i].date == appointments[j].date && appointments[i].time == appointments[j].time
      ==> i == j
  }
}

=== FILE: properties.dfy ===
/** What the request handlers guarantee together: the store invariant
    holds in every state the application can reach, a slot holds at most one
    "Booked" appointment as long as no doctor sets "Booked" on an appointment
    that is not booked, in a slot another appointment holds, and the round trips between registration, login, booking and
    deletion behave as the application promises. */
module Properties {
  import opened Models
  import opened Auth
  import opened Handlers

  /** The state-changing routes, with the form fields each one reads. */
  datatype Request =
    | PostRegister(username: string, password: string)
    | PostDoctorNew(session: Option<nat>, name: string, specialization: string, availability: string,
                    username: string, password: string)
    | PostDoctorEdit(session: Option<nat>, profileId: nat, name: string, specialization: string,
                     availability: string)
    | GetDoctorDelete(session: Option<nat>, profileId: nat)
    | PostPatientProfile(session: Option<nat>, contact: Option<string>, age: Option<string>)
    | PostDoctorAppointment(session: Option<nat>, appointmentId: nat, status: Option<string>,
                            diagnosis: Option<string>, prescription: Option<string>, notes: Option<string>)
    | PostBookAppointment(session: Option<nat>, profileId: nat, date: string, time: string)

  /** Routing: the handler a request reaches. */
  function Handle(s: State, req: Request): Response
  {
    match req
    case PostRegister(username, password) => Register(s, username, password)
    case PostDoctorNew(session, name, specialization, availability, username, password) =>
      DoctorNew(s, session, name, specialization, availability, username, password)
    case PostDoctorEdit(session, profileId, name, specialization, availability) =>
      DoctorEdit(s, session, profileId, name, specialization, availability)
    case GetDoctorDelete(session, profileId) => DoctorDelete(s, session, profileId)
    case PostPatientProfile(session, contact, age) => PatientProfile(s, session, contact, age)
    case PostDoctorAppointment(session, appointmentId, status, diagnosis, prescription, notes) =>
      DoctorAppointment(s, session, appointmentId, status, diagnosis, prescription, notes)
    case PostBookAppointment(session, profileId, date, time) => BookAppointment(s, session, profileId, date, time)
  }

  /** The database after serving the requests one after another. */
  function Run(s: State, reqs: seq<Request>): State
    decreases |reqs|
  {
    if reqs == [] then s else Run(Handle(s, reqs[0]).state, reqs[1..])
  }

  // ---------------------------------------------------------------------
  // The store invariant is kept by every handler.

  /** Adding a user under the next id with a username nobody has keeps the
      invariant (shared by create_data, register and doctor_new). */
  lemma NewUserKeepsValid(s: State, u: User)
    requires Valid(s)
    requires !UsernameTaken(s.users, u.username)
    ensures Valid(s.(users := s.users[s.nextUserId := u], nextUserId := s.nextUserId + 1))
  {
  }

  lemma CreateDataKeepsValid(s: State)
    requires Valid(s)
    ensures Valid(CreateData(s))
  {
    if !UsernameTaken(s.users, "admin") {
      NewUserKeepsValid(s, User("admin", HashPassword("admin123"), Admin, None, None));
    }
  }

  lemma RegisterKeepsValid(s: State, username: string, password: string)
    requires Valid(s)
    ensures Valid(Register(s, username, password).state)
  {
    if !UsernameTaken(s.users, username) {
      NewUserKeepsValid(s, User(username, HashPassword(password), Patient, None, None));
    }
  }

  lemma DoctorNewKeepsValid(s: State, session: Option<nat>, name: string, specialization: string,
                            availability: string, username: string, password: string)
    requires Valid(s)
    ensures Valid(DoctorNew(s, session, name, specialization, availability, username, password).state)
  {
    if Guard(s, session, Admin) == Ok && !UsernameTaken(s.users, username) {
      var u := User(username, HashPassword(password), Doctor, None, None);
      NewUserKeepsValid(s, u);
      var s1 := s.(users := s.users[s.nextUserId := u], nextUserId := s.nextUserId + 1);
      var profile := DoctorProfile(s.nextUserId, name, specialization, availability);
      var t := s1.(profiles := s1.profiles[s1.nextProfileId := profile], nextProfileId := s1.nextProfileId + 1);
      assert t == DoctorNew(s, session, name, specialization, availability, username, password).state;
    }
  }

  lemma DoctorDeleteKeepsValid(s: State, session: Option<nat>, profileId: nat)
    requires Valid(s)
    ensures Valid(DoctorDelete(s, session, profileId).state)
  {
  }

  lemma DoctorEditKeepsValid(s: State, session: Option<nat>, profileId: nat, name: string,
                             specialization: string, availability: string)
    requires Valid(s)
    ensures Valid(DoctorEdit(s, session, profileId, name, specialization, availability).state)
  {
  }

  lemma PatientProfileKeepsValid(s: State, session: Option<nat>, contact: Option<string>, age: Option<string>)
    requires Valid(s)
    ensures Valid(PatientProfile(s, session, contact, age).state)
  {
  }

  lemma DoctorAppointmentKeepsValid(s: State, session: Option<nat>, appointmentId: nat, status: Option<string>,
                                    diagnosis: Option<string>, prescription: Option<string>, notes: Option<string>)
    requires Valid(s)
    ensures Valid(DoctorAppointment(s, session, appointmentId, status, diagnosis, prescription, notes).state)
  {
  }

  lemma BookAppointmentKeepsValid(s: State, session: Option<nat>, profileId: nat, date: string, time: string)
    requires Valid(s)
    ensures Valid(BookAppointment(s, session, profileId, date, time).state)
  {
  }

  /** Every handler keeps the store invariant. */
  lemma HandleKeepsValid(s: State, req: Request)
    requires Valid(s)
    ensures Valid(Handle(s, req).state)
  {
    match req
    case PostRegister(username, password) => RegisterKeepsValid(s, username, password);
    case PostDoctorNew(session, name, specialization, availability, username, password) =>
      DoctorNewKeepsValid(s, session, name, specialization, availability, username, password);
    case PostDoctorEdit(session, profileId, name, specialization, availability) =>
      DoctorEditKeepsValid(s, session, profileId, name, specialization, availability);
    case GetDoctorDelete(session, profileId) => DoctorDeleteKeepsValid(s, session, profileId);
    case PostPatientProfile(session, contact, age) => PatientProfileKeepsValid(s, session, contact, age);
    case PostDoctorAppointment(session, appointmentId, status, diagnosis, prescription, notes) =>
      DoctorAppointmentKeepsValid(s, session, appointmentId, status, diagnosis, prescription, notes);
    case PostBookAppointment(session, profileId, date, time) =>
      BookAppointmentKeepsValid(s, session, profileId, date, time);
  }

  /** Every state reachable from the seeded database satisfies the store
      invariant: usernames are unique, each user has at most one profile,
      every profile's user exists and is a doctor. */
  lemma {:induction false} RunKeepsValid(s: State, reqs: seq<Request>)
    requires Valid(s)
    ensures Valid(Run(s, reqs))
    decreases |reqs|
  {
    if reqs != [] {
      HandleKeepsValid(s, reqs[0]);
      RunKeepsValid(Handle(s, reqs[0]).state, reqs[1..]);
    }
  }

  lemma ReachableIsValid(reqs: seq<Request>)
    ensures Valid(Run(CreateData(Empty()), reqs))
  {
    CreateDataKeepsValid(Empty());
    RunKeepsValid(CreateData(Empty()), reqs);
  }

  /** Seeding is idempotent, and the seeded database holds exactly the admin. */
  lemma CreateDataIdempotent(s: State)
    ensures CreateData(CreateData(s)) == CreateData(s)
    ensures CreateData(Empty()).users == map[1 := User("admin", HashPassword("admin123"), Admin, None, None)]
  {
  }

  // ---------------------------------------------------------------------
  // The role guard.

  /** The role a route demands of its caller; registration demands none. */
  function RequiredRole(req: Request): Option<Role>
  {
    match req
    case PostRegister(_, _) => None
    case PostDoctorNew(_, _, _, _, _, _) => Some(Admin)
    case PostDoctorEdit(_, _, _, _, _) => Some(Admin)
    case GetDoctorDelete(_, _) => Some(Admin)
    case PostPatientProfile(_, _, _) => Some(Patient)
    case PostDoctorAppointment(_, _, _, _, _, _) => Some(Doctor)
    case PostBookAppointment(_, _, _, _) => Some(Patient)
  }

  /** A protected route whose caller is anonymous, or logged in with another
      role, is redirected and changes nothing. */
  lemma GuardRejectsChangeNothing(s: State, req: Request)
    requires RequiredRole(req).Some?
    requires CurrentUser(s, req.session).None? || CurrentUser(s, req.session).value.role != RequiredRole(req).value
    ensures Handle(s, req).state == s
    ensures CurrentUser(s, req.session).None? ==> Handle(s, req).outcome == LoginRequired
    ensures CurrentUser(s, req.session).Some? ==> Handle(s, req).outcome == Redirected
  {
  }

  /** In particular a patient cannot run any of the admin routes. */
  lemma PatientCannotManageDoctors(s: State, session: Option<nat>, profileId: nat, name: string,
                                   specialization: string, availability: string, username: string, password: string)
    requires CurrentUser(s, session).Some? && CurrentUser(s, session).value.role == Patient
    ensures DoctorNew(s, session, name, specialization, availability, username, password) == Response(Redirected, s)
    ensures DoctorEdit(s, session, profileId, name, specialization, availability) == Response(Redirected, s)
    ensures DoctorDelete(s, session, profileId) == Response(Redirected, s)
  {
  }

  // ---------------------------------------------------------------------
  // Booking.

  /** A booking that finds the slot free leaves it at most singly booked. */
  lemma BookKeepsNoDoubleBooking(s: State, session: Option<nat>, profileId: nat, date: string, time: string)
    requires Valid(s) && NoDoubleBooking(s.appointments)
    ensures NoDoubleBooking(BookAppointment(s, session, profileId, date, time).state.appointments)
  {
  }

  /** A doctor's update that sets "Booked" on an appointment that is not
      booked, in a slot that another appointment already holds. */
  predicate Rebooks(s: State, req: Request)
  {
    && req.PostDoctorAppointment?
    && req.status == Some(BOOKED)
    && Guard(s, req.session, Doctor) == Ok
    && req.appointmentId in s.appointments
    && var a := s.appointments[req.appointmentId];
       !IsBooked(a) && SlotTaken(s.appointments, a.doctorId, a.date, a.time)
  }

  /** The doctor route checks neither ownership nor the slot: its update
      double-books exactly when it is a rebooking. Re-saving an appointment
      that is still "Booked", or booking a free slot, is harmless. */
  lemma DoctorAppointmentKeepsNoDoubleBooking(s: State, session: Option<nat>, appointmentId: nat,
                                              status: Option<string>, diagnosis: Option<string>,
                                              prescription: Option<string>, notes: Option<string>)
    requires NoDoubleBooking(s.appointments)
    ensures NoDoubleBooking(DoctorAppointment(s, session, appointmentId, status, diagnosis, prescription, notes).state.appointments)
        <==> !Rebooks(s, PostDoctorAppointment(session, appointmentId, status, diagnosis, prescription, notes))
  {
    if Rebooks(s, PostDoctorAppointment(session, appointmentId, status, diagnosis, prescription, notes)) {
      var a := s.appointments[appointmentId];
      var j :| j in s.appointments && s.appointments[j].doctorId == a.doctorId
               && s.appointments[j].date == a.date && s.appointments[j].time == a.time && IsBooked(s.appointments[j]);
      var t := DoctorAppointment(s, session, appointmentId, status, diagnosis, prescription, notes).state;
      // The slot's booked appointment j and the rebooked one are now both "Booked".
      assert j != appointmentId && IsBooked(t.appointments[appointmentId]) && t.appointments[j] == s.appointments[j];
    }
  }

  /** Every request other than a rebooking keeps the slots singly booked. */
  lemma HandleKeepsNoDoubleBooking(s: State, req: Request)
    requires Valid(s) && NoDoubleBooking(s.appointments)
    requires !Rebooks(s, req)
    ensures NoDoubleBooking(Handle(s, req).state.appointments)
  {
    match req
    case PostBookAppointment(session, profileId, date, time) =>
      BookKeepsNoDoubleBooking(s, session, profileId, date, time);
    case PostDoctorAppointment(session, appointmentId, status, diagnosis, prescription, notes) =>
      DoctorAppointmentKeepsNoDoubleBooking(s, session, appointmentId, status, diagnosis, prescription, notes);
    case _ =>
  }

  /** No request of the run is a rebooking in the state it reaches. */
  predicate NoRebooking(s: State, reqs: seq<Request>)
    decreases |reqs|
  {
    reqs == [] || (!Rebooks(s, reqs[0]) && NoRebooking(Handle(s, reqs[0]).state, reqs[1..]))
  }

  /** As long as no doctor rebooks a taken slot, no slot ever holds two
      "Booked" appointments. */
  lemma {:induction false} RunKeepsNoDoubleBooking(s: State, reqs: seq<Request>)
    requires Valid(s) && NoDoubleBooking(s.appointments)
    requires NoRebooking(s, reqs)
    ensures NoDoubleBooking(Run(s, reqs).appointments)
    decreases |reqs|
  {
    if reqs != [] {
      HandleKeepsValid(s, reqs[0]);
      HandleKeepsNoDoubleBooking(s, reqs[0]);
      RunKeepsNoDoubleBooking(Handle(s, reqs[0]).state, reqs[1..]);
    }
  }

  /** The same, from the seeded database. */
  lemma ReachableNoDoubleBooking(reqs: seq<Request>)
    requires NoRebooking(CreateData(Empty()), reqs)
    ensures NoDoubleBooking(Run(CreateData(Empty()), reqs).appointments)
  {
    CreateDataKeepsValid(Empty());
    RunKeepsNoDoubleBooking(CreateData(Empty()), reqs);
  }

  /** From the seeded database: Dr. Smith is created, alice registers and
      books, the doctor cancels, alice books the same slot again, and the
      doctor sets the cancelled appointment back to "Booked". */
  const DOUBLE_BOOKING_RUN: seq<Request> := [
    PostDoctorNew(Some(1), "Dr. Smith", "General medicine", "Mon-Fri", "drsmith", "smithpw"),
    PostRegister("alice", "alicepw"),
    PostBookAppointment(Some(3), 1, "2024-06-01", "10:00"),
    PostDoctorAppointment(Some(2), 1, Some("Cancelled"), None, None, None),
    PostBookAppointment(Some(3), 1, "2024-06-01", "10:00"),
    PostDoctorAppointment(Some(2), 1, Some(BOOKED), None, None, None)]

  /** One request of a run. */
  lemma RunUnfold(s: State, reqs: seq<Request>)
    requires reqs != []
    ensures Run(s, reqs) == Run(Handle(s, reqs[0]).state, reqs[1..])
    ensures NoRebooking(s, reqs) <==> !Rebooks(s, reqs[0]) && NoRebooking(Handle(s, reqs[0]).state, reqs[1..])
  {
  }

  /** The states the run passes through after alice has registered. */
  const CANCELLED_VISIT: Appointment := ALICE_VISIT.(status := Some("Cancelled"))
  const AFTER_SIGNUP: State := State(map[1 := ADMIN, 2 := SMITH, 3 := ALICE], map[1 := SMITH_PROFILE], map[], 4, 2, 1)
  const AFTER_CANCEL: State := AFTER_SIGNUP.(appointments := map[1 := CANCELLED_VISIT], nextAppointmentId := 2)
  const AFTER_REBOOK: State := AFTER_SIGNUP.(appointments := map[1 := CANCELLED_VISIT, 2 := ALICE_VISIT],
                                             nextAppointmentId := 3)

  /** Seeding, creating Dr. Smith and registering alice. */
  lemma DoubleBookingSignup()
    ensures Handle(Handle(CreateData(Empty()), DOUBLE_BOOKING_RUN[0]).state, DOUBLE_BOOKING_RUN[1]).state == AFTER_SIGNUP
  {
    ScenarioAccounts();
  }

  /** Booking, then cancelling. */
  lemma DoubleBookingFirstVisit()
    ensures Handle(Handle(AFTER_SIGNUP, DOUBLE_BOOKING_RUN[2]).state, DOUBLE_BOOKING_RUN[3]).state == AFTER_CANCEL
  {
    var s3 := AFTER_SIGNUP.(appointments := map[1 := ALICE_VISIT], nextAppointmentId := 2);
    assert Handle(AFTER_SIGNUP, DOUBLE_BOOKING_RUN[2]).state == s3;
  }

  /** Booking the freed slot again, then setting the cancelled appointment
      back to "Booked", which is a rebooking. */
  lemma DoubleBookingSecondVisit()
    ensures Handle(AFTER_CANCEL, DOUBLE_BOOKING_RUN[4]).state == AFTER_REBOOK
    ensures Rebooks(AFTER_REBOOK, DOUBLE_BOOKING_RUN[5])
    ensures Handle(AFTER_REBOOK, DOUBLE_BOOKING_RUN[5]).state.appointments == map[1 := ALICE_VISIT, 2 := ALICE_VISIT]
  {
    assert !IsBooked(CANCELLED_VISIT);
    assert AFTER_REBOOK.appointments[2] == ALICE_VISIT;
  }

  /** The first five requests: none is a rebooking, and they end in
      AFTER_REBOOK. */
  lemma DoubleBookingPrefix()
    ensures NoRebooking(CreateData(Empty()), DOUBLE_BOOKING_RUN[..5])
    ensures Run(CreateData(Empty()), DOUBLE_BOOKING_RUN[..5]) == AFTER_REBOOK
  {
    var P := DOUBLE_BOOKING_RUN[..5];
    var s0 := CreateData(Empty());
    var s1 := Handle(s0, P[0]).state;
    var s3 := Handle(AFTER_SIGNUP, P[2]).state;
    DoubleBookingSignup();
    DoubleBookingFirstVisit();
    DoubleBookingSecondVisit();
    assert P[1..][1..] == P[2..] && P[2..][1..] == P[3..] && P[3..][1..] == P[4..] && P[4..][1..] == [];
    RunUnfold(s0, P);
    RunUnfold(s1, P[1..]);
    RunUnfold(AFTER_SIGNUP, P[2..]);
    RunUnfold(s3, P[3..]);
    RunUnfold(AFTER_CANCEL, P[4..]);
  }

  /** That run double-books the slot, and the blame lies with its last
      request: the first five contain no rebooking and leave the slots
      singly booked, and the sixth is a rebooking. */
  lemma DoctorAppointmentCanDoubleBook()
    ensures NoRebooking(CreateData(Empty()), DOUBLE_BOOKING_RUN[..5])
    ensures Run(CreateData(Empty()), DOUBLE_BOOKING_RUN[..5]) == AFTER_REBOOK
    ensures NoDoubleBooking(AFTER_REBOOK.appointments)
    ensures Rebooks(AFTER_REBOOK, DOUBLE_BOOKING_RUN[5])
    ensures !NoDoubleBooking(Run(CreateData(Empty()), DOUBLE_BOOKING_RUN).appointments)
  {
    var R := DOUBLE_BOOKING_RUN;
    var s0 := CreateData(Empty());
    var s1 := Handle(s0, R[0]).state;
    var s3 := Handle(AFTER_SIGNUP, R[2]).state;
    DoubleBookingPrefix();
    DoubleBookingSignup();
    DoubleBookingFirstVisit();
    DoubleBookingSecondVisit();
    assert R[1..][1..] == R[2..] && R[2..][1..] == R[3..] && R[3..][1..] == R[4..];
    assert R[4..][1..] == R[5..] && R[5..][1..] == [];
    RunUnfold(s0, R);
    RunUnfold(s1, R[1..]);
    RunUnfold(AFTER_SIGNUP, R[2..]);
    RunUnfold(s3, R[3..]);
    RunUnfold(AFTER_CANCEL, R[4..]);
    RunUnfold(AFTER_REBOOK, R[5..]);
  }

  /** Booking a free slot succeeds, and the same slot booked again right
      after, by the same or any other patient, is refused unchanged. */
  lemma BookTwice(s: State, session: Option<nat>, other: Option<nat>, profileId: nat, date: string, time: string)
    requires Guard(s, session, Patient) == Ok && profileId in s.profiles
    requires !SlotTaken(s.appointments, s.profiles[profileId].userId, date, time)
    requires Guard(BookAppointment(s, session, profileId, date, time).state, other, Patient) == Ok
    ensures BookAppointment(s, session, profileId, date, time).outcome == Ok
    ensures
      var t := BookAppointment(s, session, profileId, date, time).state;
      BookAppointment(t, other, profileId, date, time) == Response(SlotConflict, t)
  {
  }

  /** Only a "Booked" appointment blocks its slot: once the doctor gives the
      booked appointment of a slot any other status, the slot can be booked
      again. */
  lemma FinishedAppointmentFreesSlot(s: State, doctor: Option<nat>, appointmentId: nat, status: Option<string>,
                                     diagnosis: Option<string>, prescription: Option<string>,
                                     notes: Option<string>, patient: Option<nat>, profileId: nat)
    requires NoDoubleBooking(s.appointments)
    requires appointmentId in s.appointments && IsBooked(s.appointments[appointmentId])
    requires profileId in s.profiles && s.profiles[profileId].userId == s.appointments[appointmentId].doctorId
    requires status != Some(BOOKED)
    requires Guard(s, doctor, Doctor) == Ok
    requires Guard(DoctorAppointment(s, doctor, appointmentId, status, diagnosis, prescription, notes).state,
                   patient, Patient) == Ok
    ensures
      var a := s.appointments[appointmentId];
      var t := DoctorAppointment(s, doctor, appointmentId, status, diagnosis, prescription, notes).state;
      BookAppointment(t, patient, profileId, a.date, a.time).outcome == Ok
  {
  }

  /** A successful booking shows on the caller's dashboard and on the
      doctor's, as "Booked". */
  lemma BookingShowsOnDashboards(s: State, session: Option<nat>, profileId: nat, date: string, time: string)
    requires BookAppointment(s, session, profileId, date, time).outcome == Ok
    ensures
      var t := BookAppointment(s, session, profileId, date, time).state;
      && s.nextAppointmentId in PatientAppointments(t, session.value)
      && s.nextAppointmentId in DoctorAppointments(t, s.profiles[profileId].userId)
      && IsBooked(t.appointments[s.nextAppointmentId])
  {
  }

  // ---------------------------------------------------------------------
  // Accounts.

  /** Registering a taken username fails and leaves the first account as it was. */
  lemma RegisterTwice(s: State, username: string, password: string, otherPassword: string)
    requires !UsernameTaken(s.users, username)
    ensures Register(s, username, password).outcome == Ok
    ensures
      var t := Register(s, username, password).state;
      Register(t, username, otherPassword) == Response(DuplicateUsername, t)
  {
  }

  /** A new patient can log in with the password it registered, lands on the
      patient dashboard as the new user, and no other password works. */
  lemma RegisterThenLogin(s: State, username: string, password: string, wrong: string)
    requires Valid(s)
    requires !UsernameTaken(s.users, username)
    requires wrong != password
    ensures
      var t := Register(s, username, password).state;
      && Login(t, username, password) == LoggedIn(s.nextUserId, PatientDashboard)
      && Login(t, username, wrong) == InvalidCredentials
  {
    RegisterKeepsValid(s, username, password);
  }

  /** Deleting a doctor removes its account: its username is free again, it
      can no longer log in, and a session it still holds is anonymous. */
  lemma DeletedDoctorIsGone(s: State, session: Option<nat>, profileId: nat, password: string)
    requires Valid(s)
    requires DoctorDelete(s, session, profileId).outcome == Ok
    ensures
      var doctorId := s.profiles[profileId].userId;
      var t := DoctorDelete(s, session, profileId).state;
      && profileId !in t.profiles
      && !UsernameTaken(t.users, s.users[doctorId].username)
      && Login(t, s.users[doctorId].username, password) == InvalidCredentials
      && Guard(t, Some(doctorId), Doctor) == LoginRequired
  {
  }

  /** Deleting a doctor keeps its appointments, which then name a doctor id
      that belongs to no user. */
  lemma DeleteLeavesAppointmentsDangling(s: State, session: Option<nat>, profileId: nat)
    requires DoctorDelete(s, session, profileId).outcome == Ok
    ensures
      var doctorId := s.profiles[profileId].userId;
      var t := DoctorDelete(s, session, profileId).state;
      forall id :: id in s.appointments && s.appointments[id].doctorId == doctorId ==>
        id in t.appointments && t.appointments[id].doctorId !in t.users
  {
  }

  // ---------------------------------------------------------------------
  // A whole session of the application.

  const ADMIN: User := User("admin", HashPassword("admin123"), Admin, None, None)
  const SMITH: User := User("drsmith", HashPassword("smithpw"), Doctor, None, None)
  const SMITH_PROFILE: DoctorProfile := DoctorProfile(2, "Dr. Smith", "General medicine", "Mon-Fri")
  const ALICE: User := User("alice", HashPassword("alicepw"), Patient, None, None)
  const BOB: User := User("bob", HashPassword("bobpw"), Patient, None, None)
  const ALICE_VISIT: Appointment := NewAppointment(3, 2, "2024-06-01", "10:00")

  /** Seeding, creating Dr. Smith and registering alice. */
  lemma ScenarioAccounts()
    ensures
      var s0 := CreateData(Empty());
      var r1 := DoctorNew(s0, Some(1), "Dr. Smith", "General medicine", "Mon-Fri", "drsmith", "smithpw");
      var r2 := Register(r1.state, "alice", "alicepw");
      && r1.outcome == Ok && r2.outcome == Ok
      && r2.state == State(map[1 := ADMIN, 2 := SMITH, 3 := ALICE], map[1 := SMITH_PROFILE], map[], 4, 2, 1)
  {
  }

  /** alice books Dr. Smith; bob registers and is refused the same slot. */
  lemma ScenarioBookings()
    ensures
      var s2 := State(map[1 := ADMIN, 2 := SMITH, 3 := ALICE], map[1 := SMITH_PROFILE], map[], 4, 2, 1);
      var r3 := BookAppointment(s2, Some(3), 1, "2024-06-01", "10:00");
      var r4 := Register(r3.state, "bob", "bobpw");
      var r5 := BookAppointment(r4.state, Some(4), 1, "2024-06-01", "10:00");
      && r3.outcome == Ok && r4.outcome == Ok
      && r5 == Response(SlotConflict, r4.state)
      && r4.state == State(map[1 := ADMIN, 2 := SMITH, 3 := ALICE, 4 := BOB], map[1 := SMITH_PROFILE],
                           map[1 := ALICE_VISIT], 5, 2, 2)
  {
  }

  /** Dr. Smith logs in and records the visit; alice's dashboard shows it. */
  lemma ScenarioOutcome()
    ensures
      var s4 := State(map[1 := ADMIN, 2 := SMITH, 3 := ALICE, 4 := BOB], map[1 := SMITH_PROFILE],
                      map[1 := ALICE_VISIT], 5, 2, 2);
      var r6 := DoctorAppointment(s4, Some(2), 1, Some("Completed"), Some("flu"), None, None);
      && Login(s4, "drsmith", "smithpw") == LoggedIn(2, DoctorDashboard)
      && r6.outcome == Ok
      && 1 in PatientAppointments(r6.state, 3)
      && PatientAppointments(r6.state, 3)[1].status == Some("Completed")
      && PatientAppointments(r6.state, 3)[1].diagnosis == Some("flu")
  {
    var s4 := State(map[1 := ADMIN, 2 := SMITH, 3 := ALICE, 4 := BOB], map[1 := SMITH_PROFILE],
                    map[1 := ALICE_VISIT], 5, 2, 2);
    // Login picks a user by name; the names are distinct, so it is user 2.
    assert UniqueUsernames(s4.users) && s4.users[2].username == "drsmith";
  }

  /** The admin (user 1) creates Dr. Smith (user 2, profile 1); alice
      registers (user 3) and books Dr. Smith at 2024-06-01 10:00; bob
      registers (user 4) and is refused the same slot; Dr. Smith logs in,
      marks alice's appointment "Completed" with diagnosis "flu", and alice's
      dashboard shows it. */
  lemma ExampleScenario()
    ensures
      var s0 := CreateData(Empty());
      var r1 := DoctorNew(s0, Some(1), "Dr. Smith", "General medicine", "Mon-Fri", "drsmith", "smithpw");
      var r2 := Register(r1.state, "alice", "alicepw");
      var r3 := BookAppointment(r2.state, Some(3), 1, "2024-06-01", "10:00");
      var r4 := Register(r3.state, "bob", "bobpw");
      var r5 := BookAppointment(r4.state, Some(4), 1, "2024-06-01", "10:00");
      var r6 := DoctorAppointment(r5.state, Some(2), 1, Some("Completed"), Some("flu"), None, None);
      && r1.outcome == Ok && r2.outcome == Ok && r3.outcome == Ok && r4.outcome == Ok
      && r5 == Response(SlotConflict, r4.state)
      && Login(r5.state, "drsmith", "smithpw") == LoggedIn(2, DoctorDashboard)
      && r6.outcome == Ok
      && 1 in PatientAppointments(r6.state, 3)
      && PatientAppointments(r6.state, 3)[1].status == Some("Completed")
      && PatientAppointments(r6.state, 3)[1].diagnosis == Some("flu")
  {
    ScenarioAccounts();
    ScenarioBookings();
    ScenarioOutcome();
  }
}

=== FILE: store.dfy ===
/** The application's database as one mutable object. Each request handler
    is a method that checks its caller's role first and then adds, deletes or
    overwrites rows in place; each is proved to leave the database exactly as
    the matching function of Handlers describes, and to keep the store
    invariant. */
module App {
  import opened Models
  import opened Auth
  import Handlers
  import Properties

  class Store {
    var users: map<nat, User>
    var profiles: map<nat, DoctorProfile>
    var appointments: map<nat, Appointment>
    var nextUserId: nat
    var nextProfileId: nat
    var nextAppointmentId: nat

    /** The database as a value. */
    function Snapshot(): State
      reads this
    {
      State(users, profiles, appointments, nextUserId, nextProfileId, nextAppointmentId)
    }

    ghost predicate Valid()
      reads this
    {
      Models.Valid(Snapshot())
    }

    /** db.create_all: empty tables. */
    constructor ()
      ensures Snapshot() == Empty() && Valid()
    {
      users, profiles, appointments := map[], map[], map[];
      nextUserId, nextProfileId, nextAppointmentId := 1, 1, 1;
    }

    method CreateData()
      requires Valid()
      modifies this
      ensures Valid()
      ensures Snapshot() == Handlers.CreateData(old(Snapshot()))
    {
      ghost var s := Snapshot();
      if !UsernameTaken(users, "admin") {
        users := users[nextUserId := User("admin", HashPassword("admin123"), Admin, None, None)];
        nextUserId := nextUserId + 1;
      }
      Properties.CreateDataKeepsValid(s);
    }

    method Register(username: string, password: string) returns (outcome: Outcome)
      requires Valid()
      modifies this
      ensures Valid()
      ensures Handlers.Response(outcome, Snapshot()) == Handlers.Register(old(Snapshot()), username, password)
    {
      ghost var s := Snapshot();
      if UsernameTaken(users, username) {
        return DuplicateUsername;
      }
      users := users[nextUserId := User(username, HashPassword(password), Patient, None, None)];
      nextUserId := nextUserId + 1;
      outcome := Ok;
      Properties.RegisterKeepsValid(s, username, password);
    }

    /** Changes nothing: the session it starts is the caller's business. */
    method Login(username: string, password: string) returns (r: Handlers.LoginResult)
      requires Valid()
      ensures r == Handlers.Login(Snapshot(), username, password)
      ensures r.LoggedIn? <==> exists id :: id in users && users[id].username == username
                                            && CheckPassword(users[id].passwordHash, password)
      ensures r.LoggedIn? ==> r.userId in users && r.landing == Landing(users[r.userId].role)
    {
      if !UsernameTaken(users, username) {
        return Handlers.InvalidCredentials;
      }
      var id :| id in users && users[id].username == username;
      var user := users[id];
      if CheckPassword(user.passwordHash, password) {
        r := Handlers.LoggedIn(id, Landing(user.role));
      } else {
        r := Handlers.InvalidCredentials;
      }
    }

    method DoctorNew(session: Option<nat>, name: string, specialization: string, availability: string,
                     username: string, password: string) returns (outcome: Outcome)
      requires Valid()
      modifies this
      ensures Valid()
      ensures Handlers.Response(outcome, Snapshot())
           == Handlers.DoctorNew(old(Snapshot()), session, name, specialization, availability, username, password)
    {
      ghost var s := Snapshot();
      outcome := Authorize(CurrentUser(Snapshot(), session), Admin);
      if outcome != Ok {
        return;
      }
      if UsernameTaken(users, username) {
        return DuplicateUsername;
      }
      var userId := nextUserId;
      users := users[userId := User(username, HashPassword(password), Doctor, None, None)];
      nextUserId := nextUserId + 1;
      profiles := profiles[nextProfileId := DoctorProfile(userId, name, specialization, availability)];
      nextProfileId := nextProfileId + 1;
      assert Snapshot() == Handlers.DoctorNew(s, session, name, specialization, availability, username, password).state;
      Properties.DoctorNewKeepsValid(s, session, name, specialization, availability, username, password);
    }

    method DoctorEdit(session: Option<nat>, profileId: nat, name: string, specialization: string,
                      availability: string) returns (outcome: Outcome)
      requires Valid()
      modifies this
      ensures Valid()
      ensures Handlers.Response(outcome, Snapshot())
           == Handlers.DoctorEdit(old(Snapshot()), session, profileId, name, specialization, availability)
    {
      ghost var s := Snapshot();
      outcome := Authorize(CurrentUser(Snapshot(), session), Admin);
      if outcome != Ok {
        return;
      }
      if profileId !in profiles {
        return NotFound;
      }
      var profile := profiles[profileId];
      profiles := profiles[profileId := profile.(name := name, specialization := specialization,
                                                 availability := availability)];
      Properties.DoctorEditKeepsValid(s, session, profileId, name, specialization, availability);
    }

    method DoctorDelete(session: Option<nat>, profileId: nat) returns (outcome: Outcome)
      requires Valid()
      modifies this
      ensures Valid()
      ensures Handlers.Response(outcome, Snapshot()) == Handlers.DoctorDelete(old(Snapshot()), session, profileId)
    {
      ghost var s := Snapshot();
      outcome := Authorize(CurrentUser(Snapshot(), session), Admin);
      if outcome != Ok {
        return;
      }
      if profileId !in profiles {
        return NotFound;
      }
      var userId := profiles[profileId].userId;
      profiles := profiles - {profileId};
      if userId in users {
        users := users - {userId};
      }
      Properties.DoctorDeleteKeepsValid(s, session, profileId);
    }

    method PatientProfile(session: Option<nat>, contact: Option<string>, age: Option<string>)
      returns (outcome: Outcome)
      requires Valid()
      modifies this
      ensures Valid()
      ensures Handlers.Response(outcome, Snapshot()) == Handlers.PatientProfile(old(Snapshot()), session, contact, age)
    {
      ghost var s := Snapshot();
      outcome := Authorize(CurrentUser(Snapshot(), session), Patient);
      if outcome != Ok {
        return;
      }
      var user := users[session.value];
      users := users[session.value := user.(contact := contact, age := age)];
      Properties.PatientProfileKeepsValid(s, session, contact, age);
    }

    method DoctorAppointment(session: Option<nat>, appointmentId: nat, status: Option<string>,
                             diagnosis: Option<string>, prescription: Option<string>, notes: Option<string>)
      returns (outcome: Outcome)
      requires Valid()
      modifies this
      ensures Valid()
      ensures Handlers.Response(outcome, Snapshot())
           == Handlers.DoctorAppointment(old(Snapshot()), session, appointmentId, status, diagnosis, prescription, notes)
    {
      ghost var s := Snapshot();
      outcome := Authorize(CurrentUser(Snapshot(), session), Doctor);
      if outcome != Ok {
        return;
      }
      if appointmentId !in appointments {
        return NotFound;
      }
      var appointment := appointments[appointmentId];
      appointments := appointments[appointmentId := appointment.(status := status, diagnosis := diagnosis,
                                                                 prescription := prescription, notes := notes)];
      Properties.DoctorAppointmentKeepsValid(s, session, appointmentId, status, diagnosis, prescription, notes);
    }

    /** Refuses a slot that already holds a "Booked" appointment, so that a
        store whose slots are singly booked stays so. */
    method BookAppointment(session: Option<nat>, profileId: nat, date: string, time: string)
      returns (outcome: Outcome)
      requires Valid()
      modifies this
      ensures Valid()
      ensures Handlers.Response(outcome, Snapshot())
           == Handlers.BookAppointment(old(Snapshot()), session, profileId, date, time)
      ensures NoDoubleBooking(old(appointments)) ==> NoDoubleBooking(appointments)
    {
      ghost var s := Snapshot();
      outcome := Authorize(CurrentUser(Snapshot(), session), Patient);
      if outcome != Ok {
        return;
      }
      if profileId !in profiles {
        return NotFound;
      }
      var doctor := profiles[profileId];
      if SlotTaken(appointments, doctor.userId, date, time) {
        return SlotConflict;
      }
      appointments := appointments[nextAppointmentId := NewAppointment(session.value, doctor.userId, date, time)];
      nextAppointmentId := nextAppointmentId + 1;
      Properties.BookAppointmentKeepsValid(s, session, profileId, date, time);
      if NoDoubleBooking(s.appointments) {
        Properties.BookKeepsNoDoubleBooking(s, session, profileId, date, time);
      }
    }
  }

  /** Two patients asking for the same slot one after the other: the first
      gets it, the second is refused and the database is left as the first
      booking made it. */
  method BookSameSlotTwice(store: Store, alice: nat, bob: nat, profileId: nat, date: string, time: string)
    returns (first: Outcome, second: Outcome)
    requires store.Valid()
    requires alice in store.users && store.users[alice].role == Patient
    requires bob in store.users && store.users[bob].role == Patient
    requires profileId in store.profiles
    requires !SlotTaken(store.appointments, store.profiles[profileId].userId, date, time)
    modifies store
    ensures first == Ok && second == SlotConflict
    ensures store.Valid()
    ensures store.Snapshot() == Handlers.BookAppointment(old(store.Snapshot()), Some(alice), profileId, date, time).state
    ensures |store.appointments| == |old(store.appointments)| + 1
  {
    first := store.BookAppointment(Some(alice), profileId, date, time);
    second := store.BookAppointment(Some(bob), profileId, date, time);
    Properties.BookTwice(old(store.Snapshot()), Some(alice), Some(bob), profileId, date, time);
  }
}
